=== FILE: README.md ===
# Marquee animation state machine in Dafny

A model of the `Marquee` React component of react-marquee (`src/index.js`):
a line of text that scrolls left one pixel per tick when it is wider than its
container. The component keeps three pieces of state: the scroll offset
`animatedWidth`, the measured `overflowWidth` (text width minus container
width, negative when the text fits) and one timer handle `_marqueeTimer`. Its
handlers start, advance, pause, rewind and stop the scroll in response to
the pending timer, the pointer entering or leaving, new props and the
lifecycle hooks.

The project has three modules:

- `MarqueeModel` (`marquee_model.dfy`): the state as a value
  `State(animatedWidth, overflowWidth, timer)` and each handler as a pure
  transition. The timer slot is an `Option<Timer>`. A `Tick` is a pending
  `animate` call. An `ApplyWrap` is the deferred loop wrap scheduled with the
  `trailing` delay. Each records its delay and the interval that
  `_startAnimation` captured. `Run` fires the pending callback n times in a
  row.
- `MarqueeLaws` (`marquee_laws.dfy`): what runs of ticks do (one pass
  without `loop`, a periodic scroll with `loop`, the trailing pause once per
  cycle), how the pointer handlers compose, and how the `hoverToStop`
  re-start in `componentDidUpdate` interacts with them.
- `MarqueeWidget` (`marquee_widget.dfy`): the component as a class whose
  fields the methods update in place. Each method states the new fields and
  ties them to the transition in `MarqueeModel`. `Valid()` (offset never
  negative, a deferred wrap always goes to 0) is kept by every method.

`setState` is an immediate assignment. The host's re-render after a
`setState` is left to the caller: `Fire`, `MouseLeave`, `MeasureText`,
`DidMount` and `DidUpdate` return `rerender`, which tells whether `setState`
ran, and the caller then invokes `DidUpdate`. The laws about that re-render
(`Update…` lemmas) compose the transitions explicitly.

Behaviour of the code worth knowing:

- With `hoverToStop`, `componentDidMount` starts the animation even when the
  text fits and no pointer handler is attached (`HoverStartsWithoutOverflow`).
- With `hoverToStop`, every re-render re-starts the animation. That includes
  a re-render while the pointer is over the widget, which undoes the pause
  (`UpdateEndsHoverPause`). When the re-render follows the wrap callback
  after it returns, the next tick after a wrap to 0 waits `leading` rather
  than the interval (`UpdateAfterWrapUsesLeading`).
- With `hoverToStop`, a timer callback that calls `setState` re-renders
  synchronously and leaves a second, untracked callback pending, so the
  hover pause does not hold once the text has moved (see "## Left out";
  the model keeps one callback).
- `handleMouseLeave` with `hoverToStop` and no positive overflow cancels the
  timer and also rewinds the offset to 0.
- The text-change test compares JavaScript `.length`, which counts UTF-16
  code units: a character outside the Basic Multilingual Plane counts twice
  (`Utf16Length`, `SurrogatePairCountsTwice`).

## Model

| member | source | states |
|---|---|---|
| MarqueeModel.Cancel | src/index.js:33-35 | clearing the timer leaves nothing pending and does not touch the offset or the overflow |
| MarqueeModel.Start | src/index.js:100-137 | any pending callback is replaced by exactly one tick; its delay is `leading` when the offset is 0 and the interval otherwise; the offset is kept |
| MarqueeModel.Fire | src/index.js:106-134 | each case of the callback: an in-range tick advances by exactly one and reschedules at the interval; a round-over tick halts without loop, wraps to 0 at once with loop and no trailing, or leaves the wrap pending for `trailing` ms; a pending wrap stores 0 and reschedules; every firing keeps the overflow and the offset within the scroll range, and the timer ends exactly on a round-over tick without loop |
| MarqueeModel.MouseEnter | src/index.js:46-52 | entering never moves the text; with hoverToStop it cancels the timer; otherwise it arms a fresh tick iff the overflow is strictly positive and leaves the timer alone otherwise |
| MarqueeModel.MouseLeave | src/index.js:54-63 | with hoverToStop and positive overflow leaving resumes at the same offset with a fresh tick; in every other case it cancels and rewinds to 0 |
| MarqueeModel.Utf16Length | src/index.js:38 | the JavaScript `.length` of a text lies between its number of characters and twice that, and equals it exactly when no character needs a surrogate pair |
| MarqueeModel.ReceiveProps | src/index.js:37-44 | a text of different `.length` (UTF-16 code units) cancels the timer and rewinds to 0; a text of the same `.length` changes nothing |
| MarqueeModel.Measure | src/index.js:139-154 | with both nodes present the overflow becomes text width minus container width; with either missing nothing changes; offset and timer are never touched |
| MarqueeModel.AfterRender | src/index.js:17-31 | mount and update take the new measurement, and with hoverToStop arm a fresh tick at the current offset; without it offset and timer are unchanged |
| MarqueeModel.Render | src/index.js:65-97 | pointer handlers are attached iff the overflow is not negative; the text is translated by minus the offset and titled with itself |
| MarqueeModel.Run | src/index.js:106-136 | a run of timer firings keeps the overflow and keeps the offset non-negative and within the scroll range |
| MarqueeLaws.RunAdd | src/index.js:125-132 | firing a + b times is firing a times and then b times, as each callback schedules the next |
| MarqueeLaws.Climb | src/index.js:106-109 | while the next k offsets stay within the overflow, k ticks advance the offset by exactly k and leave one tick at the interval pending |
| MarqueeLaws.NonLoopPass | src/index.js:109-116 | without loop, from offset 0 over overflow W, W ticks reach W and the next tick halts for good: nothing pending, no further movement |
| MarqueeLaws.LoopNeverHalts | src/index.js:111-113 | with loop, no firing ever leaves the timer slot empty |
| MarqueeLaws.LoopPosition | src/index.js:127-133 | for chained timer firings with no re-render in between (the component without hoverToStop), with loop and no trailing delay, from offset 0 over overflow W, the offset after n ticks is n mod (W + 1) and every tick after the first waits the interval |
| MarqueeLaws.TrailingLoopPosition | src/index.js:119-126 | for chained timer firings with no re-render in between (the component without hoverToStop), with loop and a trailing delay, a cycle takes W + 2 firings; exactly once per cycle the wrap is pending for `trailing` ms with the text at W, then the offset goes back to 0 |
| MarqueeLaws.StartIdempotent | src/index.js:100-104 | starting twice leaves the same single tick as starting once |
| MarqueeLaws.MeasureIdempotent | src/index.js:143-152 | measuring twice with the same widths equals measuring once, and the second measurement calls no setState |
| MarqueeLaws.HoverPauseResumes | src/index.js:46-63 | with hoverToStop and overflow, enter then leave arms the same tick at the same offset as a plain start |
| MarqueeLaws.HoverScrollRewinds | src/index.js:54-63 | without hoverToStop, enter then leave ends idle at offset 0 with nothing pending |
| MarqueeLaws.HoverStartsWithoutOverflow | src/index.js:17-23 | with hoverToStop, mounting a text that fits schedules a tick though no pointer handler is attached |
| MarqueeLaws.UpdateEndsHoverPause | src/index.js:25-31 | with hoverToStop, a re-render after the pointer paused the animation schedules a tick again |
| MarqueeLaws.UpdateDuringClimbInvisible | src/index.js:28-30 | with hoverToStop, the re-render after any tick inside a round (the first, which waited `leading`, included) changes only the overflow it measures, since the restart re-arms the tick the callback scheduled; when it measures the same overflow it leaves the state as the tick left it |
| MarqueeLaws.UpdateAfterWrapUsesLeading | src/index.js:119-133 | with hoverToStop and loop, the re-render that runs after the wrap callback has returned, whatever widths it measures, leaves the text at 0 and re-arms the next tick with `leading` in place of the interval the callback scheduled |
| MarqueeLaws.SurrogatePairCountsTwice | src/index.js:38 | "a😀" and "abc" both have `.length` 3, so swapping one for the other keeps the animation; "ab" against "abc" rewinds it |
| MarqueeLaws.TextChangeRewinds | src/index.js:37-44 | a text of another length rewinds to 0; the update that follows restarts after `leading` with hoverToStop and leaves nothing pending without it |
| MarqueeLaws.ScenarioScrollOnHover | src/index.js:46-63 | a 120 px text in a 50 px container with default props stays still until the pointer enters, then scrolls 70 ticks, the first at once (leading 0) and then one every 20 ms, and halts at 70; leaving at any point of the pass rewinds to 0 with nothing pending |
| MarqueeLaws.ScenarioLoopWithTrailing | src/index.js:106-136 | the same text with hoverToStop, loop, trailing 100 and interval 10 ticks from mount, reaches 70 after 70 ticks, holds the wrap pending for 100 ms at the 71st, returns to 0 at the 72nd, and the following re-render re-arms with the leading delay 0 |
| MarqueeWidget.Marquee.constructor | src/index.js:6-15 | a new component has offset 0, overflow 0 and no timer |
| MarqueeWidget.Marquee.ClearTimer | src/index.js:101 | the timer slot is emptied and nothing else changes |
| MarqueeWidget.Marquee.StartAnimation | src/index.js:100-137 | the slot holds one tick with delay `leading` at offset 0 and the interval otherwise; the offset is kept |
| MarqueeWidget.Marquee.Fire | src/index.js:106-134 | each of the five cases of the callback: advance and reschedule, halt, wrap at once, defer the wrap, apply the deferred wrap; `rerender` says whether setState ran |
| MarqueeWidget.Marquee.MouseEnter | src/index.js:46-52 | the hoverToStop truth table of the enter handler, as in the model |
| MarqueeWidget.Marquee.MouseLeave | src/index.js:54-63 | the hoverToStop truth table of the leave handler; `rerender` is set exactly when the offset is rewound |
| MarqueeWidget.Marquee.ReceiveProps | src/index.js:37-44 | a change of `.length` (UTF-16 code units) cancels and rewinds; the new props are installed |
| MarqueeWidget.Marquee.MeasureText | src/index.js:139-154 | the overflow becomes text width minus container width when both nodes exist; `rerender` says whether it changed |
| MarqueeWidget.Marquee.DidMount | src/index.js:17-23 | measure, then with hoverToStop arm a fresh tick |
| MarqueeWidget.Marquee.DidUpdate | src/index.js:25-31 | measure, then with hoverToStop re-arm a fresh tick on every update |
| MarqueeWidget.Marquee.WillUnmount | src/index.js:33-35 | the pending callback is cancelled and the state is otherwise unchanged |

## Left out

- JSX, the inline styles, the `className` string and `PropTypes`: only the
  choice between the static and the interactive box and the translation
  offset are modelled (`Render`).
- `ReactDOM.findDOMNode` and `offsetWidth`: the two widths are inputs of
  `Measure`, with `None` for a node that is not available.
- Real `setTimeout`/`clearTimeout` and wall-clock time: the timer is a
  single slot holding the pending callback with its delay as data, and
  `Fire` runs it. Nothing models time passing.
- The tick interval `(1 / speed) * 1000` is a floating-point value. It is
  the opaque integer `Props.interval`. Behaviour for `speed <= 0` is not
  modelled.
- `trailing` and `leading` are integers; JavaScript truthiness of
  `trailing` is modelled as `trailing != 0`, and non-numeric values
  (`undefined`, `NaN`) are not.
- React's batching of `setState` and its scheduling of re-renders: state
  updates are immediate and the caller invokes `DidUpdate` itself, after
  the handler or timer callback that called `setState` has returned. That
  is the order of React 18 with a `createRoot` root, whose automatic
  batching runs the re-render after the callback. In the legacy render
  mode (React 17 and earlier, or React 18 with a legacy root), a
  `setState` inside a `setTimeout` callback re-renders synchronously. With `hoverToStop`, `_startAnimation`
  then runs inside the `setState` at src/index.js:121 and :128, and the callback
  afterwards stores a second `setTimeout` at :125 and :132 without
  clearing the first. Two callbacks are then pending. That state does not
  fit the single timer slot and is not modelled, so the `Update…` lemmas
  and the loop laws describe the order in which the re-render follows the
  callback. The two pending callbacks persist: each firing that calls
  `setState` again restarts inside the re-render and then stores a new
  handle over it. `clearTimeout` in `handleMouseEnter` (src/index.js:48)
  cancels only the tracked callback; the other one fires, calls
  `setState`, and the re-render restarts the animation
  (src/index.js:28-30). So with `hoverToStop`, once one tick has moved the
  text, hovering does not hold the pause in the code as written. With
  `loop` and a `leading` longer than the interval, the count can also grow:
  after a wrap to 0 the restart inside the re-render stores an untracked
  tick that waits `leading`, while the tracked interval tick stored at
  :132 fires first; its own re-render's `clearTimeout` at :101 clears only
  that tracked handle, so a third callback appears, and from then on two
  chains advance the text and it scrolls twice as fast. None of this is
  modelled.
- MarqueeModel.MouseEnter, MarqueeWidget.Marquee.MouseEnter,
  MarqueeLaws.HoverPauseResumes and the `hoverToStop` run of
  MarqueeLaws.ScenarioLoopWithTrailing describe the state with a single
  pending callback (before any tick has called `setState`, or with the
  re-render ordered after the callback). The untracked second callback
  is not modelled: it keeps the animation going under the pointer, and
  it fires alongside the tracked one.
- MarqueeModel.Utf16Length: a Dafny `char` is a Unicode scalar value, so a
  JavaScript string holding a lone surrogate, which counts 1 toward
  `.length`, cannot be represented.

=== FILE: marquee_laws.dfy ===
/**
 * Laws of the Marquee state machine: what repeated timer firings do from a
 * fresh start (one pass without loop, a periodic scroll with loop), and how
 * the handlers compose.
 */
module MarqueeLaws {
  import opened MarqueeModel

  /** Firing a + b times is firing a times, then b times. */
  lemma {:induction false} RunAdd(p: Props, s: State, a: nat, b: nat)
    ensures Run(p, s, a + b) == Run(p, Run(p, s, a), b)
    decreases a
  {
    if a == 0 || s.timer.None? {
      assert Run(p, s, a) == s;
    } else {
      RunAdd(p, Fire(p, s), a - 1, b);
      assert a + b - 1 == (a - 1) + b;
    }
  }

  /** Once nothing is pending, further firings change nothing. */
  lemma RunStopped(p: Props, s: State, n: nat)
    requires s.timer.None?
    ensures Run(p, s, n) == s
  {
  }

  /** While the next k offsets stay within the overflow, k ticks advance the
      offset by exactly k, each one rescheduling a tick at the interval. */
  lemma {:induction false} Climb(p: Props, s: State, k: nat)
    requires s.timer.Some? && s.timer.value.Tick?
    requires s.animatedWidth + k <= s.overflowWidth
    ensures k > 0 ==>
      Run(p, s, k) == State(s.animatedWidth + k, s.overflowWidth,
                            Some(Tick(s.timer.value.interval, s.timer.value.interval)))
    decreases k
  {
    if k > 0 {
      var s' := Fire(p, s);
      assert s' == State(s.animatedWidth + 1, s.overflowWidth,
                         Some(Tick(s.timer.value.interval, s.timer.value.interval)));
      Climb(p, s', k - 1);
    }
  }

  /** Without loop, a pass started at offset 0 over an overflow of W pixels
      reaches W after W ticks, and the next tick ends it for good: nothing
      is pending and no number of further firings moves the text. */
  lemma {:induction false} NonLoopPass(p: Props, w: nat, t: Option<Timer>, m: nat)
    requires !p.loop
    ensures var s := Start(p, State(0, w, t));
      && Run(p, s, w) == State(w, w, Some(Tick(if w == 0 then p.leading else p.interval, p.interval)))
      && Run(p, s, w + 1 + m) == State(w, w, None)
  {
    var s := Start(p, State(0, w, t));
    Climb(p, s, w);
    var top := Run(p, s, w);
    assert Fire(p, top) == State(w, w, None);
    RunAdd(p, s, w, 1 + m);
    assert Run(p, top, 1 + m) == Run(p, State(w, w, None), m);
    RunStopped(p, State(w, w, None), m);
  }

  /** With loop, the timer never runs out: every firing leaves a callback
      pending, whatever the state. */
  lemma {:induction false} LoopNeverHalts(p: Props, s: State, n: nat)
    requires p.loop && s.timer.Some?
    ensures Run(p, s, n).timer.Some?
    decreases n
  {
    if n > 0 {
      LoopNeverHalts(p, Fire(p, s), n - 1);
    }
  }

  /** The remainder of n + 1 follows the remainder of n, wrapping at m. */
  lemma ModSucc(n: nat, m: nat)
    requires m > 0
    ensures (n + 1) % m == if n % m + 1 == m then 0 else n % m + 1
  {
    var q, r := n / m, n % m;
    var q', r' := if r + 1 == m then q + 1 else q, if r + 1 == m then 0 else r + 1;
    assert n + 1 == q' * m + r' by {
      assert n == q * m + r;
      assert (q + 1) * m == q * m + m;
    }
    ModUnique(n + 1, m, q', r');
  }

  /** The remainder is the one r with 0 <= r < m and n == q * m + r. */
  lemma ModUnique(n: int, m: int, q: int, r: int)
    requires m > 0 && 0 <= r < m && n == q * m + r
    ensures n % m == r
  {
    var q2, r2 := n / m, n % m;
    assert q2 * m + r2 == n;
    if q2 > q {
      assert (q2 - q) * m == q2 * m - q * m;
      MulAtLeast(q2 - q, m);
    } else if q2 < q {
      assert (q - q2) * m == q * m - q2 * m;
      MulAtLeast(q - q2, m);
    }
  }

  lemma {:induction false} MulAtLeast(d: int, m: int)
    requires d >= 1 && m > 0
    ensures d * m >= m
    decreases d
  {
    if d > 1 {
      MulAtLeast(d - 1, m);
      assert d * m == (d - 1) * m + m;
    }
  }

  /** With loop and no trailing delay, a run started at offset 0 over an
      overflow of W pixels is at offset n mod (W + 1) after n ticks: it
      returns to 0 every W + 1 ticks, and every tick after the first waits
      the regular interval. */
  lemma {:induction false} LoopPosition(p: Props, w: nat, t: Option<Timer>, n: nat)
    requires p.loop && p.trailing == 0
    ensures Run(p, Start(p, State(0, w, t)), n) ==
      State(n % (w + 1), w, Some(Tick(if n == 0 then p.leading else p.interval, p.interval)))
    decreases n
  {
    var s := Start(p, State(0, w, t));
    if n > 0 {
      LoopPosition(p, w, t, n - 1);
      RunAdd(p, s, n - 1, 1);
      ModSucc(n - 1, w + 1);
    }
  }

  /** With loop and a trailing delay, a cycle takes W + 2 firings: W + 1
      ticks climb to W and meet the end of the round, which leaves the wrap
      pending for `trailing` ms with the text still at W, exactly once per
      cycle; the wrap then puts it back to 0 and ticking resumes. */
  lemma {:induction false} TrailingLoopPosition(p: Props, w: nat, t: Option<Timer>, n: nat)
    requires p.loop && p.trailing != 0
    ensures var r := n % (w + 2);
      Run(p, Start(p, State(0, w, t)), n) ==
        if r == w + 1 then State(w, w, Some(ApplyWrap(0, p.trailing, p.interval)))
        else State(r, w, Some(Tick(if n == 0 then p.leading else p.interval, p.interval)))
    decreases n
  {
    var s := Start(p, State(0, w, t));
    if n > 0 {
      TrailingLoopPosition(p, w, t, n - 1);
      RunAdd(p, s, n - 1, 1);
      ModSucc(n - 1, w + 2);
    }
  }

  /** Starting twice leaves the same single tick as starting once. */
  lemma StartIdempotent(p: Props, s: State)
    ensures Start(p, Start(p, s)) == Start(p, s)
  {
  }

  /** Measuring twice with the same widths is measuring once. */
  lemma MeasureIdempotent(s: State, container: Option<nat>, text: Option<nat>)
    ensures Measure(Measure(s, container, text), container, text) == Measure(s, container, text)
    ensures !MeasureSetsState(Measure(s, container, text), container, text)
  {
  }

  /** With hoverToStop and overflow, hovering is a pause: entering and then
      leaving arms the same tick as a plain start, at the same offset. */
  lemma HoverPauseResumes(p: Props, s: State)
    requires p.hoverToStop && s.overflowWidth > 0
    ensures MouseEnter(p, s).timer.None?
    ensures MouseLeave(p, MouseEnter(p, s)) == Start(p, s)
  {
  }

  /** Without hoverToStop, entering and then leaving always ends idle at
      offset 0, whether or not entering started the animation. */
  lemma HoverScrollRewinds(p: Props, s: State)
    requires !p.hoverToStop
    ensures MouseLeave(p, MouseEnter(p, s)) == State(0, s.overflowWidth, None)
  {
  }

  /** With hoverToStop the animation is started on mount even when the text
      fits and no pointer handler is attached. */
  lemma HoverStartsWithoutOverflow(p: Props, container: nat, text: nat)
    requires p.hoverToStop && text < container
    ensures AfterRender(p, Initial, Some(container), Some(text)).timer == Some(Tick(p.leading, p.interval))
    ensures !Render(p, AfterRender(p, Initial, Some(container), Some(text))).interactive
  {
  }

  /** With hoverToStop, any re-render re-arms the timer, also while the
      pointer is over the widget after it paused the animation. */
  lemma UpdateEndsHoverPause(p: Props, s: State, container: Option<nat>, text: Option<nat>)
    requires p.hoverToStop
    ensures AfterRender(p, MouseEnter(p, s), container, text).timer.Some?
  {
  }

  /** With hoverToStop, the re-render that follows a tick inside a round,
      the first tick of a run included, only takes the new measurement: the
      restart re-arms the very tick the callback scheduled. When the
      measurement is unchanged, the state is exactly as the tick left it. */
  lemma UpdateDuringClimbInvisible(p: Props, s: State, container: Option<nat>, text: Option<nat>)
    requires p.hoverToStop && WellFormed(s)
    requires s.timer.Some? && s.timer.value.Tick? && s.timer.value.interval == p.interval
    requires !RoundOver(s)
    ensures AfterRender(p, Fire(p, s), container, text) == Measure(Fire(p, s), container, text)
    ensures Measure(s, container, text) == s ==> AfterRender(p, Fire(p, s), container, text) == Fire(p, s)
  {
  }

  /** With hoverToStop, the re-render that follows a wrap to 0 re-arms the
      next tick with `leading` instead of the interval the tick scheduled. */
  lemma UpdateAfterWrapUsesLeading(p: Props, s: State, container: Option<nat>, text: Option<nat>)
    requires p.hoverToStop && p.loop && s.timer.Some?
    requires s.timer.value.ApplyWrap? || (RoundOver(s) && p.trailing == 0)
    requires WellFormed(s)
    ensures FireSetsState(p, s)
    ensures Fire(p, s).timer == Some(Tick(s.timer.value.interval, s.timer.value.interval))
    ensures AfterRender(p, Fire(p, s), container, text)
      == State(0, Measure(Fire(p, s), container, text).overflowWidth, Some(Tick(p.leading, p.interval)))
  {
  }

  /** A character outside the Basic Multilingual Plane counts twice: "a😀"
      and "abc" both have `.length` 3, so swapping one for the other keeps
      the animation going, while "ab" against "abc" rewinds it. */
  lemma SurrogatePairCountsTwice(p: Props, s: State)
    ensures Utf16Length("a\U{1F600}") == 3
    ensures ReceiveProps(p.(text := "a\U{1F600}"), p.(text := "abc"), s) == s
    ensures ReceiveProps(p.(text := "ab"), p.(text := "abc"), s) == State(0, s.overflowWidth, None)
  {
    assert "a\U{1F600}"[1..] == "\U{1F600}";
    assert "abc"[1..] == "bc" && "bc"[1..] == "c";
    assert "ab"[1..] == "b";
  }

  /** A text of another length rewinds the animation whatever the settings;
      with hoverToStop the update that follows restarts it after `leading`. */
  lemma TextChangeRewinds(p: Props, next: Props, s: State, container: Option<nat>, text: Option<nat>)
    requires Utf16Length(p.text) != Utf16Length(next.text)
    ensures var r := AfterRender(next, ReceiveProps(p, next, s), container, text);
      && r.animatedWidth == 0
      && (next.hoverToStop ==> r.timer == Some(Tick(next.leading, next.interval)))
      && (!next.hoverToStop ==> r.timer.None?)
  {
  }

  /** A text of 120 px in a 50 px container with the default props: nothing
      moves until the pointer enters; then the text scrolls one pixel per
      tick for 70 ticks, the first at once (leading 0) and then one every
      20 ms, and halts at 70; leaving at any point of the pass
      puts it back to 0 with nothing pending. */
  lemma ScenarioScrollOnHover(k: nat)
    requires k <= 71
    ensures var p := DefaultProps.(text := "Hello World");
      var mounted := AfterRender(p, Initial, Some(50), Some(120));
      var entered := MouseEnter(p, mounted);
      && mounted == State(0, 70, None)
      && entered.timer == Some(Tick(0, 20))
      && Run(p, entered, 70) == State(70, 70, Some(Tick(20, 20)))
      && Run(p, entered, 71) == State(70, 70, None)
      && MouseLeave(p, Run(p, entered, k)) == State(0, 70, None)
  {
    var p := DefaultProps.(text := "Hello World");
    var entered := MouseEnter(p, AfterRender(p, Initial, Some(50), Some(120)));
    assert entered == Start(p, State(0, 70, None));
    NonLoopPass(p, 70, None, 0);
    if 0 < k <= 70 {
      Climb(p, entered, k);
    }
  }

  /** The same text with hoverToStop, loop, a 100 ms trailing delay and a
      10 ms interval: the timer runs from mount; after 70 ticks the text is
      at 70; the 71st tick leaves the wrap pending for 100 ms; the wrap puts
      the text back to 0, and the re-render that follows re-arms the next
      tick with the leading delay 0. */
  lemma ScenarioLoopWithTrailing()
    ensures var p := Props("Hello World", true, true, 0, 100, 10);
      var mounted := AfterRender(p, Initial, Some(50), Some(120));
      && mounted == State(0, 70, Some(Tick(0, 10)))
      && Run(p, mounted, 70) == State(70, 70, Some(Tick(10, 10)))
      && Run(p, mounted, 71) == State(70, 70, Some(ApplyWrap(0, 100, 10)))
      && Run(p, mounted, 72) == State(0, 70, Some(Tick(10, 10)))
      && AfterRender(p, Run(p, mounted, 72), Some(50), Some(120)) == State(0, 70, Some(Tick(0, 10)))
  {
    var p := Props("Hello World", true, true, 0, 100, 10);
    assert AfterRender(p, Initial, Some(50), Some(120)) == Start(p, State(0, 70, None));
    TrailingLoopPosition(p, 70, None, 70);
    TrailingLoopPosition(p, 70, None, 71);
    TrailingLoopPosition(p, 70, None, 72);
  }
}

=== FILE: marquee_model.dfy ===
/**
 * The animation state machine of the Marquee widget, as pure functions over
 * its state: the scroll offset `animatedWidth`, the measured `overflowWidth`
 * and the single timer slot `_marqueeTimer`. Each function is one handler of
 * the component; `setState` is an immediate assignment and a pending
 * `setTimeout` callback is a value in the timer slot, fired by `Fire`.
 */
module MarqueeModel {

  datatype Option<+T> = None | Some(value: T)

  /** The props the state machine reads. `interval` stands for the tick
      interval 1000/speed in milliseconds, taken as given. */
  datatype Props = Props(
    text: string,
    hoverToStop: bool,
    loop: bool,
    leading: int,
    trailing: int,
    interval: int)

  /** The defaults of the component, with speed 50 giving a 20 ms interval. */
  const DefaultProps: Props := Props("", false, false, 0, 0, 20)

  /** A pending timer callback with the delay it was scheduled with.
      `Tick` runs one animation step; `ApplyWrap` is the deferred loop wrap
      that stores `value` (always 0) after the trailing delay. Both carry
      the interval captured when the animation was started. */
  datatype Timer =
    | Tick(delay: int, interval: int)
    | ApplyWrap(value: int, delay: int, interval: int)

  datatype State = State(animatedWidth: int, overflowWidth: int, timer: Option<Timer>)

  /** The state set up by the constructor: no offset, no overflow, no timer. */
  const Initial: State := State(0, 0, None)

  /** What every reachable state satisfies: the offset is never negative and
      a deferred wrap always goes back to 0. */
  predicate WellFormed(s: State) {
    && s.animatedWidth >= 0
    && (s.timer.Some? && s.timer.value.ApplyWrap? ==> s.timer.value.value == 0)
  }

  function Max(a: int, b: int): int {
    if a < b then b else a
  }

  /** The offset lies within the scrollable range. Ticks keep this; a new
      measurement may break it, after which the next tick ends the round. */
  predicate Bounded(s: State) {
    WellFormed(s) && s.animatedWidth <= Max(s.overflowWidth, 0)
  }

  /** clearTimeout(this._marqueeTimer): the pending callback never runs. */
  function Cancel(s: State): (r: State)
    ensures r.timer.None?
    ensures r.animatedWidth == s.animatedWidth && r.overflowWidth == s.overflowWidth
  {
    s.(timer := None)
  }

  /** The delay of the first tick of a run: `leading` from offset 0,
      otherwise the regular interval. */
  function StartDelay(p: Props, animatedWidth: int): int {
    if animatedWidth == 0 then p.leading else p.interval
  }

  /** The timer slot holds exactly the tick a fresh start schedules. */
  predicate Armed(p: Props, s: State) {
    s.timer == Some(Tick(StartDelay(p, s.animatedWidth), p.interval))
  }

  /** _startAnimation: drop whatever was pending and arm one tick. The
      offset is kept, so a paused animation resumes where it stopped. */
  function Start(p: Props, s: State): (r: State)
    ensures Armed(p, r)
    ensures r.animatedWidth == s.animatedWidth && r.overflowWidth == s.overflowWidth
  {
    var timeout := StartDelay(p, s.animatedWidth);
    Cancel(s).(timer := Some(Tick(timeout, p.interval)))
  }

  /** The next offset would pass the overflow: the round is over. */
  predicate RoundOver(s: State) {
    s.animatedWidth + 1 > s.overflowWidth
  }

  /** The pending callback runs. A tick advances by one pixel, or at the end
      of a round halts (no loop), wraps to 0 at once (loop, no trailing) or
      defers the wrap by `trailing` (loop and trailing). A deferred wrap
      stores its value and resumes ticking. `loop` and `trailing` are read
      from the current props; the interval is the captured one. */
  function Fire(p: Props, s: State): (r: State)
    requires s.timer.Some?
    ensures r.overflowWidth == s.overflowWidth
    ensures WellFormed(s) ==> WellFormed(r)
    ensures Bounded(s) ==> Bounded(r)
    ensures r.timer.None? <==> s.timer.value.Tick? && RoundOver(s) && !p.loop
    ensures r.timer.Some? ==> r.timer.value.interval == s.timer.value.interval
    ensures var iv := s.timer.value.interval;
      && (s.timer.value.Tick? && !RoundOver(s) ==>
            r == State(s.animatedWidth + 1, s.overflowWidth, Some(Tick(iv, iv))))
      && (s.timer.value.Tick? && RoundOver(s) && !p.loop ==> r == Cancel(s))
      && (s.timer.value.Tick? && RoundOver(s) && p.loop && p.trailing == 0 ==>
            r == State(0, s.overflowWidth, Some(Tick(iv, iv))))
      && (s.timer.value.Tick? && RoundOver(s) && p.loop && p.trailing != 0 ==>
            r == s.(timer := Some(ApplyWrap(0, p.trailing, iv))))
      && (s.timer.value.ApplyWrap? ==>
            r == State(s.timer.value.value, s.overflowWidth, Some(Tick(iv, iv))))
  {
    match s.timer.value
    case Tick(_, interval) =>
      var next := s.animatedWidth + 1;
      var isRoundOver := next > s.overflowWidth;
      if isRoundOver && !p.loop then
        s.(timer := None)
      else if isRoundOver && p.trailing != 0 then
        s.(timer := Some(ApplyWrap(0, p.trailing, interval)))
      else
        State(if isRoundOver then 0 else next, s.overflowWidth, Some(Tick(interval, interval)))
    case ApplyWrap(value, _, interval) =>
      State(value, s.overflowWidth, Some(Tick(interval, interval)))
  }

  /** Whether firing calls setState, and so makes the host re-render and
      run componentDidUpdate. */
  predicate FireSetsState(p: Props, s: State)
    requires s.timer.Some?
  {
    s.timer.value.ApplyWrap? || !RoundOver(s) || (p.loop && p.trailing == 0)
  }

  /** handleMouseEnter: with hoverToStop the pointer pauses the animation;
      otherwise it starts one, but only when the text overflows. */
  function MouseEnter(p: Props, s: State): (r: State)
    ensures r.animatedWidth == s.animatedWidth && r.overflowWidth == s.overflowWidth
    ensures p.hoverToStop ==> r.timer.None?
    ensures !p.hoverToStop && s.overflowWidth > 0 ==> Armed(p, r)
    ensures !p.hoverToStop && s.overflowWidth <= 0 ==> r.timer == s.timer
  {
    if p.hoverToStop then Cancel(s)
    else if s.overflowWidth > 0 then Start(p, s)
    else s
  }

  /** handleMouseLeave resumes (hoverToStop and overflow) or else stops. */
  predicate LeaveResumes(p: Props, s: State) {
    p.hoverToStop && s.overflowWidth > 0
  }

  /** handleMouseLeave: resume without moving the text, or stop and put the
      text back at offset 0. */
  function MouseLeave(p: Props, s: State): (r: State)
    ensures r.overflowWidth == s.overflowWidth
    ensures LeaveResumes(p, s) ==> r.animatedWidth == s.animatedWidth && Armed(p, r)
    ensures !LeaveResumes(p, s) ==> r.animatedWidth == 0 && r.timer.None?
  {
    if LeaveResumes(p, s) then Start(p, s)
    else Cancel(s).(animatedWidth := 0)
  }

  /** The JavaScript `.length` of a string: the number of its UTF-16 code
      units, where a character beyond the Basic Multilingual Plane takes a
      surrogate pair. */
  function Utf16Length(s: string): (n: nat)
    ensures |s| <= n <= 2 * |s|
    ensures n == |s| <==> forall i :: 0 <= i < |s| ==> s[i] as int < 0x1_0000
  {
    if s == [] then 0
    else
      var rest := Utf16Length(s[1..]);
      assert forall i :: 1 <= i < |s| ==> s[i] == s[1..][i - 1];
      (if s[0] as int < 0x1_0000 then 1 else 2) + rest
  }

  /** componentWillReceiveProps: a text of another `.length` stops the
      animation and rewinds it; a text of the same `.length` changes
      nothing. */
  function ReceiveProps(p: Props, next: Props, s: State): (r: State)
    ensures r.overflowWidth == s.overflowWidth
    ensures Utf16Length(p.text) != Utf16Length(next.text) ==> r.animatedWidth == 0 && r.timer.None?
    ensures Utf16Length(p.text) == Utf16Length(next.text) ==> r == s
  {
    if Utf16Length(p.text) != Utf16Length(next.text) then Cancel(s).(animatedWidth := 0) else s
  }

  /** _measureText with the widths of the container and the text node; None
      stands for a node that is not available. */
  function Measure(s: State, container: Option<nat>, text: Option<nat>): (r: State)
    ensures r.animatedWidth == s.animatedWidth && r.timer == s.timer
    ensures container.Some? && text.Some? ==> r.overflowWidth == text.value - container.value
    ensures container.None? || text.None? ==> r == s
  {
    if container.Some? && text.Some? then
      var overflowWidth := text.value - container.value;
      if overflowWidth != s.overflowWidth then s.(overflowWidth := overflowWidth) else s
    else
      s
  }

  /** Whether measuring calls setState (the overflow changed). */
  predicate MeasureSetsState(s: State, container: Option<nat>, text: Option<nat>) {
    container.Some? && text.Some? && text.value - container.value != s.overflowWidth
  }

  /** componentDidMount and componentDidUpdate, which do the same: measure,
      then with hoverToStop (re)start the animation. */
  function AfterRender(p: Props, s: State, container: Option<nat>, text: Option<nat>): (r: State)
    ensures r.overflowWidth == Measure(s, container, text).overflowWidth
    ensures p.hoverToStop ==> r.animatedWidth == s.animatedWidth && Armed(p, r)
    ensures !p.hoverToStop ==> r.animatedWidth == s.animatedWidth && r.timer == s.timer
  {
    var measured := Measure(s, container, text);
    if p.hoverToStop then Start(p, measured) else measured
  }

  /** What render produces: whether the pointer handlers are attached, the
      horizontal translation of the text in pixels, its title and content. */
  datatype View = View(interactive: bool, translateX: int, title: string, content: string)

  /** render: a text that fits gets no pointer handlers; the text is shifted
      left by the current offset and titled with itself. */
  function Render(p: Props, s: State): (v: View)
    ensures v.interactive <==> s.overflowWidth >= 0
    ensures v.translateX == -s.animatedWidth
    ensures v.title == p.text && v.content == p.text
  {
    View(!(s.overflowWidth < 0), -s.animatedWidth, p.text, p.text)
  }

  /** The host's timer queue firing the pending callback up to n times, with
      no other event in between; it stops early once nothing is pending. */
  function Run(p: Props, s: State, n: nat): (r: State)
    ensures r.overflowWidth == s.overflowWidth
    ensures WellFormed(s) ==> WellFormed(r)
    ensures Bounded(s) ==> Bounded(r)
    decreases n
  {
    if n == 0 || s.timer.None? then s else Run(p, Fire(p, s), n - 1)
  }
}

=== FILE: marquee_widget.dfy ===
/**
 * The Marquee component as an object: its props, its state fields and its
 * one timer slot, updated in place by the handlers. Each method states the
 * new fields and ties them to the pure transition of MarqueeModel, whose
 * laws are proved in MarqueeLaws.
 *
 * The host drives the object: it calls DidMount once, Fire whenever the
 * pending timer expires, the pointer handlers on enter and leave,
 * ReceiveProps and then DidUpdate on a new set of props, and DidUpdate
 * after each state change the methods report with `rerender`.
 */
module MarqueeWidget {
  import M = MarqueeModel

  class Marquee {
    var props: M.Props
    var animatedWidth: int
    var overflowWidth: int
    /** this._marqueeTimer: at most one callback is pending. */
    var timer: M.Option<M.Timer>

    function Snapshot(): M.State
      reads this
    {
      M.State(animatedWidth, overflowWidth, timer)
    }

    predicate Valid()
      reads this
    {
      M.WellFormed(Snapshot())
    }

    constructor (p: M.Props)
      ensures Valid() && props == p
      ensures animatedWidth == 0 && overflowWidth == 0 && timer == M.None
      ensures Snapshot() == M.Initial
    {
      props := p;
      animatedWidth, overflowWidth := 0, 0;
      timer := M.None;
    }

    /** clearTimeout(this._marqueeTimer). */
    method ClearTimer()
      requires Valid()
      modifies this`timer
      ensures Valid() && timer == M.None
      ensures Snapshot() == M.Cancel(old(Snapshot()))
    {
      timer := M.None;
    }

    method StartAnimation()
      requires Valid()
      modifies this`timer
      ensures Valid()
      ensures timer == M.Some(M.Tick(if animatedWidth == 0 then props.leading else props.interval,
                                     props.interval))
      ensures Snapshot() == M.Start(props, old(Snapshot()))
    {
      ClearTimer();
      var isLeading := animatedWidth == 0;
      var timeout := if isLeading then props.leading else props.interval;
      timer := M.Some(M.Tick(timeout, props.interval));
    }

    /** The pending callback runs; `rerender` tells whether it called
        setState. */
    method Fire() returns (rerender: bool)
      requires Valid() && timer.Some?
      modifies this`animatedWidth, this`timer
      ensures Valid()
      ensures overflowWidth == old(overflowWidth)
      ensures old(timer.value).Tick? && old(animatedWidth) + 1 <= overflowWidth ==>
        animatedWidth == old(animatedWidth) + 1 && timer == M.Some(M.Tick(old(timer.value.interval), old(timer.value.interval)))
      ensures old(timer.value).Tick? && old(animatedWidth) + 1 > overflowWidth && !props.loop ==>
        animatedWidth == old(animatedWidth) && timer == M.None
      ensures old(timer.value).Tick? && old(animatedWidth) + 1 > overflowWidth && props.loop && props.trailing == 0 ==>
        animatedWidth == 0 && timer == M.Some(M.Tick(old(timer.value.interval), old(timer.value.interval)))
      ensures old(timer.value).Tick? && old(animatedWidth) + 1 > overflowWidth && props.loop && props.trailing != 0 ==>
        animatedWidth == old(animatedWidth) && timer == M.Some(M.ApplyWrap(0, props.trailing, old(timer.value.interval)))
      ensures old(timer.value).ApplyWrap? ==>
        animatedWidth == 0 && timer == M.Some(M.Tick(old(timer.value.interval), old(timer.value.interval)))
      ensures rerender == M.FireSetsState(props, old(Snapshot()))
      ensures Snapshot() == M.Fire(props, old(Snapshot()))
    {
      match timer.value
      case Tick(_, speed) =>
        var next := animatedWidth + 1;
        var isRoundOver := next > overflowWidth;
        if isRoundOver {
          if props.loop {
            next := 0;
          } else {
            timer := M.None;
            return false;
          }
        }
        if isRoundOver && props.trailing != 0 {
          timer := M.Some(M.ApplyWrap(next, props.trailing, speed));
          rerender := false;
        } else {
          animatedWidth := next;
          timer := M.Some(M.Tick(speed, speed));
          rerender := true;
        }
      case ApplyWrap(value, _, speed) =>
        animatedWidth := value;
        timer := M.Some(M.Tick(speed, speed));
        rerender := true;
    }

    method MouseEnter()
      requires Valid()
      modifies this`timer
      ensures Valid()
      ensures props.hoverToStop ==> timer == M.None
      ensures !props.hoverToStop && overflowWidth > 0 ==> M.Armed(props, Snapshot())
      ensures !props.hoverToStop && overflowWidth <= 0 ==> timer == old(timer)
      ensures Snapshot() == M.MouseEnter(props, old(Snapshot()))
    {
      if props.hoverToStop {
        ClearTimer();
      } else if overflowWidth > 0 {
        StartAnimation();
      }
    }

    method MouseLeave() returns (rerender: bool)
      requires Valid()
      modifies this`animatedWidth, this`timer
      ensures Valid()
      ensures overflowWidth == old(overflowWidth)
      ensures props.hoverToStop && overflowWidth > 0 ==>
        animatedWidth == old(animatedWidth) && M.Armed(props, Snapshot())
      ensures !(props.hoverToStop && overflowWidth > 0) ==> animatedWidth == 0 && timer == M.None
      ensures rerender == !M.LeaveResumes(props, old(Snapshot()))
      ensures Snapshot() == M.MouseLeave(props, old(Snapshot()))
    {
      if props.hoverToStop && overflowWidth > 0 {
        StartAnimation();
        rerender := false;
      } else {
        ClearTimer();
        animatedWidth := 0;
        rerender := true;
      }
    }

    /** componentWillReceiveProps, comparing the `.length` of the texts,
        followed by the host installing the new props. */
    method ReceiveProps(nextProps: M.Props)
      requires Valid()
      modifies this
      ensures Valid() && props == nextProps
      ensures overflowWidth == old(overflowWidth)
      ensures M.Utf16Length(old(props.text)) != M.Utf16Length(nextProps.text) ==>
        animatedWidth == 0 && timer == M.None
      ensures M.Utf16Length(old(props.text)) == M.Utf16Length(nextProps.text) ==>
        animatedWidth == old(animatedWidth) && timer == old(timer)
      ensures Snapshot() == M.ReceiveProps(old(props), nextProps, old(Snapshot()))
    {
      if M.Utf16Length(props.text) != M.Utf16Length(nextProps.text) {
        ClearTimer();
        animatedWidth := 0;
      }
      props := nextProps;
    }

    /** _measureText, given the widths of the container and of the text
        node when each is available; `rerender` tells whether it called
        setState. */
    method MeasureText(container: M.Option<nat>, text: M.Option<nat>) returns (rerender: bool)
      requires Valid()
      modifies this`overflowWidth
      ensures Valid()
      ensures container.Some? && text.Some? ==> overflowWidth == text.value - container.value
      ensures container.None? || text.None? ==> overflowWidth == old(overflowWidth)
      ensures rerender == M.MeasureSetsState(old(Snapshot()), container, text)
      ensures Snapshot() == M.Measure(old(Snapshot()), container, text)
    {
      rerender := false;
      if container.Some? && text.Some? {
        var containerWidth: int := container.value;
        var textWidth: int := text.value;
        var overflow := textWidth - containerWidth;
        if overflow != overflowWidth {
          overflowWidth := overflow;
          rerender := true;
        }
      }
    }

    method DidMount(container: M.Option<nat>, text: M.Option<nat>) returns (rerender: bool)
      requires Valid()
      modifies this`overflowWidth, this`timer
      ensures Valid()
      ensures props.hoverToStop ==> M.Armed(props, Snapshot())
      ensures !props.hoverToStop ==> timer == old(timer)
      ensures rerender == M.MeasureSetsState(old(Snapshot()), container, text)
      ensures Snapshot() == M.AfterRender(props, old(Snapshot()), container, text)
    {
      rerender := MeasureText(container, text);
      if props.hoverToStop {
        StartAnimation();
      }
    }

    method DidUpdate(container: M.Option<nat>, text: M.Option<nat>) returns (rerender: bool)
      requires Valid()
      modifies this`overflowWidth, this`timer
      ensures Valid()
      ensures props.hoverToStop ==> M.Armed(props, Snapshot())
      ensures !props.hoverToStop ==> timer == old(timer)
      ensures rerender == M.MeasureSetsState(old(Snapshot()), container, text)
      ensures Snapshot() == M.AfterRender(props, old(Snapshot()), container, text)
    {
      rerender := MeasureText(container, text);
      if props.hoverToStop {
        StartAnimation();
      }
    }

    method WillUnmount()
      requires Valid()
      modifies this`timer
      ensures Valid() && timer == M.None
      ensures Snapshot() == M.Cancel(old(Snapshot()))
    {
      ClearTimer();
    }
  }
}
